=== FILE: README.md ===
# Banking ledger engine — a Dafny model

This project models the ledger engine of a small Spring banking service.
Users hold accounts and move money with **deposit**, **withdraw** and
**transfer**. Every movement leaves a transaction record, and
**getTransactions** reads an account's history back. Underneath sit the
ownership gate and the account reads of `AccountService`: getAccountById,
getUserAccounts and createAccount.

The model is a pure state machine. A `Ledger.Bank` holds:

- the set of known users;
- the account table, a `map` from account id to `Account{number, owner, kind, balance, status}`;
- the transaction log, a `seq` of `TxRecord`;
- the next account identity.

Each state-changing operation is a function from a bank to a `Reply`: the bank afterwards,
plus either a result or one error kind from a closed set. The kinds are
`NotFound`, `Unauthorized`, `Suspended`, `InvalidAmount`,
`InsufficientBalance`, `UserNotFound` and `Aborted`. `SameAccount` exists
only in the corrected transfer (see Findings). The reads change nothing:
getTransactions takes a bank and returns a `Result`, and getAccountById and
getUserAccounts take the account table itself. Money is an exact integer
number of cents: the amount column has scale 2, and no floating point is
involved. A `TxRecord` always has a type (DEPOSIT, WITHDRAW or TRANSFER)
and an amount, as the entity demands. Its source and destination are
optional (`Option`) and refer to accounts by id.

Modules:

- `Outcomes`: the tagged result, plus `FirstFailed`, a reference definition of
  "report the first failing check of an ordered list".
- `Decimal`: Java's `Long.toString`, which the account number needs.
- `Accounts`: the account, the store, the ownership gate, getAccountById,
  getUserAccounts and the account number.
- `Transactions`: the record and its column limits, insert as PENDING, mark
  COMPLETED, and the query by account.
- `Ledger`: the bank, createAccount, deposit, withdraw, transfer (as written
  and corrected), getTransactions, and `Step`, a one-request transition that
  uses the corrected transfer.
- `GuardOrder`: the order of checks and what each rejection leaves behind.
- `Conservation`: the sum of balances, and how every operation moves it.
- `Properties`: non-negativity, deposit undone by withdraw, and a worked
  three-operation history.

Assumptions taken where the code is silent:

- AccountService.java does not define `validateAccountOwnership`, which
  TransactionService calls at lines 45, 82, 128 and 182. The model's gate
  behaves like getAccountById (AccountService.java:43-45): it fails both when
  the account is absent and when someone else owns it, so it does not reveal
  whether a foreign account exists. The error kind it reports, `Unauthorized`,
  is a choice of this model; getAccountById itself throws the same "Account
  not found" error in both cases, modelled as `NotFound`. A consequence: once
  the gate passes, the service's own "account not found" check on the operated
  account can never fire. Only transfer's destination lookup can report
  `NotFound`.
- Transaction.java declares no status field, but the service builds records
  with one (TransactionService.java:59, 68). Status is modelled as
  PENDING | COMPLETED | FAILED.
- `Account.java` is not part of this model:
  - account status is ACTIVE | SUSPENDED, and only ACTIVE passes;
  - the account type is carried as an opaque name;
  - a new account is taken to start ACTIVE.
- A record's identity comes from an IDENTITY column (Transaction.java:21-23).
  The store draws it, so each money operation takes it as a parameter `txId`,
  as it takes the clock reading `now`. Such values only grow, but a value
  drawn by an insert that is rejected or rolled back is not reused, so they
  may have gaps. The bank invariant therefore asks only that identities
  strictly increase along the log. An operation keeps the invariant when the
  drawn identity is above every logged one (`Transactions.AboveLog`).
  `createdAt` and the account-number clock are the `now` parameter.
- deposit, withdraw and transfer run inside
  `@Transactional(rollbackFor = Exception.class)` (TransactionService.java:42,
  79, 121-125), so any failure rolls back their whole unit of work. The model
  returns the input bank unchanged on every error. createAccount,
  getUserAccounts, getAccountById and getTransactions are not transactional,
  but each makes at most one write, so they are atomic as well.
- A failed insert of the PENDING record also aborts the unit of work, with
  `Aborted`. This happens when the description exceeds its 255-character
  column or the amount exceeds its 15-digit column.

What the code does, where a reader might expect otherwise:

- The catch blocks save a FAILED record (TransactionService.java:72-76,
  114-118, 173-177), but that save is rolled back with the rest of the unit of
  work. The model logs nothing on failure.
- transfer never checks that the source and the destination differ (see
  Findings).
- Only the source of a transfer is checked for ownership
  (TransactionService.java:128). The destination may belong to anyone.
- transfer reads both accounts with a plain `findById`
  (TransactionService.java:136-139). Nothing locks them, and nothing orders
  the locks; see Left out.

## Model

| member | source | states |
|---|---|---|
| Accounts.GetAccountById | src/main/java/com/example/finance/accounts/AccountService.java:42-48 | succeeds exactly when the account exists and the caller owns it, and then returns the stored account; a missing and a foreign account both give NotFound |
| Accounts.NonOwnerCannotProbe | src/main/java/com/example/finance/accounts/AccountService.java:43-45 | for a caller who owns the account in neither of two stores, getAccountById and the ownership gate answer identically, so existence cannot be probed |
| Accounts.ValidateOwnership | src/main/java/com/example/finance/transactions/TransactionService.java:45 | the gate passes exactly for the account's owner; an absent or foreign account is refused with Unauthorized |
| Accounts.GetUserAccounts | src/main/java/com/example/finance/accounts/AccountService.java:36-40 | lists exactly the accounts whose owner is the user, each as stored |
| Accounts.UserAccountsMatchGetAccountById | src/main/java/com/example/finance/accounts/AccountService.java:36-48 | an account is listed for a user if and only if getAccountById lets that user read it, and both show the same account |
| Accounts.AccountNumber | src/main/java/com/example/finance/accounts/AccountService.java:32 | the number starts with "ACC", and for non-negative user id and clock the rest is decimal digits |
| Accounts.AccountNumberEncodes | src/main/java/com/example/finance/accounts/AccountService.java:32 | for every user id and clock reading, the text right after "ACC", as long as the rendering of the user id, reads back as the user id, and the rest reads back as the clock: the number is "ACC", then the user id, then the clock |
| Accounts.AccountNumberCollides | src/main/java/com/example/finance/accounts/AccountService.java:32 | the number is not unique: user 1 at 23 ms and user 12 at 3 ms both get "ACC123" |
| Decimal.DigitsValueOfNatToString | src/main/java/com/example/finance/accounts/AccountService.java:32 | reading back the digits rendered for a number gives that number |
| Decimal.LongValueOfLongToString | src/main/java/com/example/finance/accounts/AccountService.java:32 | the rendering of any `long` value, negative ones included, is valid decimal text and reads back as that value |
| Transactions.Insert | src/main/java/com/example/finance/transactions/Transaction.java:39-43 | inserting succeeds exactly when the amount fits 15 digits of cents and the description 255 characters; it appends one PENDING record stamped with the identity the store drew and the insertion time, and keeps identities strictly increasing when that identity is above every logged one |
| Transactions.MarkCompleted | src/main/java/com/example/finance/transactions/TransactionService.java:68-69 | the record becomes COMPLETED and no other field (identity, creation time included) and no other record changes |
| Transactions.PendingThenCompleted | src/main/java/com/example/finance/transactions/TransactionService.java:59-69 | insert-as-PENDING followed by mark-COMPLETED equals appending one COMPLETED record created at insertion time |
| Transactions.InvolvingMembers | src/main/java/com/example/finance/transactions/TransactionRepository.java:8 | the query returns exactly the logged records whose source or destination is the account, each exactly as often as the log holds it |
| Transactions.InvolvingAppend | src/main/java/com/example/finance/transactions/TransactionRepository.java:8 | after one more record is logged, the history gains that record if and only if it touches the account |
| Ledger.ValidateAccountStatus | src/main/java/com/example/finance/transactions/TransactionService.java:36-40 | passes exactly ACTIVE accounts and refuses the others with Suspended |
| Ledger.CreateAccount | src/main/java/com/example/finance/accounts/AccountService.java:26-34 | fails with UserNotFound exactly for an unknown user, changing nothing; otherwise adds exactly one account, equal to an ACTIVE account owned by the user with the requested account type, the requested (unchecked) balance and the generated number, keeps every other account and the log, and keeps the bank invariant |
| Ledger.Deposit | src/main/java/com/example/finance/transactions/TransactionService.java:42-77 | succeeds if and only if the caller owns the account, the amount is positive, the account is ACTIVE and the row fits; then only that balance rises by exactly the amount and one COMPLETED DEPOSIT record (no source, destination the account) is appended; any failure returns the bank unchanged |
| Ledger.Withdraw | src/main/java/com/example/finance/transactions/TransactionService.java:79-119 | succeeds if and only if the caller owns the account, the amount is positive, the account is ACTIVE, its balance covers the amount and the row fits; then only that balance falls by exactly the amount, stays non-negative, and one COMPLETED WITHDRAW record (no destination) is appended; any failure changes nothing |
| Ledger.Transfer | src/main/java/com/example/finance/transactions/TransactionService.java:121-178 | succeeds if and only if the caller owns the source, the amount is positive, both accounts are ACTIVE, the source covers the amount and the row fits; no account other than the two changes; for distinct accounts the source is debited and the destination credited by exactly the amount, their sum is preserved and the bank invariant is kept |
| Ledger.TransferChecked | src/main/java/com/example/finance/transactions/TransactionService.java:126-178 | corrected transfer: identical to transfer for distinct accounts, refuses a self-transfer with SameAccount, and every success debits one account and credits another |
| Ledger.GetTransactions | src/main/java/com/example/finance/transactions/TransactionService.java:180-187 | succeeds exactly for the account's owner and then returns exactly the logged records touching the account, none more often than logged; a non-owner gets Unauthorized |
| Ledger.GetTransactionsCounts | src/main/java/com/example/finance/transactions/TransactionService.java:180-186 | for the account's owner, the returned history holds each record that touches the account exactly as often as the log does, and no other record |
| Ledger.Step | src/main/java/com/example/finance/transactions/TransactionService.java:42-178 | with the corrected transfer, every request whose drawn record identity is above every logged one keeps the bank invariant (well-formed COMPLETED records with positive amounts, strictly increasing identities, accounts owned by known users); every request only ever appends to the log and never drops an account |
| GuardOrder.DepositGuardOrder | src/main/java/com/example/finance/transactions/TransactionService.java:45-60 | deposit reports the first failing check in the order ownership, amount, existence, status, column fit, and succeeds when none fails |
| GuardOrder.WithdrawGuardOrder | src/main/java/com/example/finance/transactions/TransactionService.java:82-102 | withdraw reports the first failing check in the order ownership, amount, existence, status, balance, column fit, and succeeds when none fails |
| GuardOrder.TransferGuardOrder | src/main/java/com/example/finance/transactions/TransactionService.java:128-153 | transfer reports the first failing check in the order source ownership, amount, source and destination existence, source and destination status, source balance, column fit, and succeeds when none fails |
| GuardOrder.ForeignAccountRefused | src/main/java/com/example/finance/transactions/TransactionService.java:45-182 | a caller who does not own the operated account (the source, for transfer) gets Unauthorized from deposit, withdraw, transfer and getTransactions, and nothing changes |
| GuardOrder.DestinationOwnerIrrelevant | src/main/java/com/example/finance/transactions/TransactionService.java:126-143 | changing the owner of a transfer's destination never changes its outcome: not whether it succeeds, not the error kind, not the record logged |
| GuardOrder.NonPositiveAmountRefused | src/main/java/com/example/finance/transactions/TransactionService.java:45-133 | for the account's owner, an amount of zero or less makes deposit, withdraw and transfer fail with InvalidAmount and leave the bank unchanged |
| GuardOrder.InactiveAccountRefused | src/main/java/com/example/finance/transactions/TransactionService.java:36-93 | an owned account that is not ACTIVE makes deposit and withdraw of a positive amount fail with Suspended and log nothing |
| GuardOrder.InactiveTransferSideRefused | src/main/java/com/example/finance/transactions/TransactionService.java:141-143 | if either side of a transfer is not ACTIVE, the transfer fails with Suspended and nothing changes |
| GuardOrder.WithdrawBoundary | src/main/java/com/example/finance/transactions/TransactionService.java:95-106 | with balance below the amount the withdrawal fails with InsufficientBalance and changes nothing; with balance equal to the amount it succeeds and leaves zero |
| Conservation.DepositMovesTotal | src/main/java/com/example/finance/transactions/TransactionService.java:63-65 | a successful deposit raises the sum of all balances by exactly the amount, which its record accounts for |
| Conservation.WithdrawMovesTotal | src/main/java/com/example/finance/transactions/TransactionService.java:105-107 | a successful withdrawal lowers the sum of all balances by exactly the amount, which its record accounts for |
| Conservation.TransferConservesTotal | src/main/java/com/example/finance/transactions/TransactionService.java:156-166 | a successful transfer between distinct accounts leaves the sum of all balances unchanged |
| Conservation.SelfTransferGain | src/main/java/com/example/finance/transactions/TransactionService.java:136-166 | a transfer from an account to itself succeeds and leaves that account richer by the amount; the total grows with no logged inflow, and the logged TRANSFER is ill-formed |
| Conservation.TransferCheckedConservesTotal | src/main/java/com/example/finance/transactions/TransactionService.java:126-178 | the corrected transfer never changes the sum of all balances |
| Conservation.CreateAccountMovesTotal | src/main/java/com/example/finance/accounts/AccountService.java:31 | opening an account adds exactly its opening balance to the total |
| Conservation.StepAccountsForEveryCent | src/main/java/com/example/finance/transactions/TransactionService.java:42-178 | with the corrected transfer, across any request the sum of balances minus the net flow recorded in the log changes only by the opening balance of a newly created account (for the transfer as written this fails; see Conservation.SelfTransferGain) |
| Properties.StepKeepsBalancesNonNegative | src/main/java/com/example/finance/transactions/TransactionService.java:95-107 | with the corrected transfer, if no account is overdrawn, no request makes one overdrawn, except opening one with a negative balance |
| Properties.NegativeOpeningBalanceAccepted | src/main/java/com/example/finance/accounts/AccountService.java:31 | createAccount accepts a negative opening balance for a known user, producing an overdrawn account |
| Properties.DepositThenWithdraw | src/main/java/com/example/finance/transactions/TransactionService.java:64-106 | depositing and then withdrawing the same amount from a non-overdrawn account restores every balance and logs two records |
| Properties.HistoryOfThreeMovements | src/main/java/com/example/finance/transactions/TransactionService.java:180-186 | after deposit 100.00, withdraw 30.00 and transfer 20.00 out of A, A's history is its earlier history followed by exactly those three COMPLETED records (the order is the model's log order, which the service does not promise), A gained 50.00 and B 20.00 |

## Left out

- Concurrency, isolation and locking (TransactionService.java:121-125). The comment at line 135 claims pessimistic locking, but `findById` is a plain read. Each operation is modelled as one atomic step.
- The catch blocks that save a FAILED record (TransactionService.java:72-76, 114-118, 173-177). Their save is rolled back with the rest of the unit of work. Observably the operation fails and the bank is as before, and that is what the model returns. FAILED is therefore never logged.
- Failures inside the store other than a column that does not fit the row (lost connections, lock timeouts). They would behave like `Aborted`.
- Clock readings. `createdAt` and the millisecond part of the account number are the `now` parameter.
- HTTP controllers, JWT parsing, the security configuration, and the DTO mapping (`toDto`). Operations return the stored account id or the record itself.
- The repositories. They are a map (accounts) and a sequence (transactions), with the query semantics of `findByUserId` and `findBySourceAccountOrDestinationAccount`. `findByAccountNumber` is not used by the core.
- deleteAccount (AccountService.java:51-53). It is an unchecked pass-through to the repository.
- Account suspension and activation. Neither AccountService nor TransactionService has such an operation. Status is only read.
- Idempotent lookup by transaction reference. Transaction has no reference field, and TransactionRepository has no lookup by one.
- Amounts with more than two decimal places, and the range of Java's `long`. Amounts are whole cents. Ids, balances and the clock are unbounded integers.
- The balance column's precision. Account.java is not part of this model.
- Ledger.GetTransactions: returns the matching records in log order, but its contract states only which records are returned and that none comes more often than logged, and `Ledger.GetTransactionsCounts` states how many times each; neither promises an order, because TransactionService promises none.
- Ledger.CreateAccount: whether the account number column is unique is not known, because Account.java is not part of this model. AccountRepository.java:11 looks accounts up by number, which suggests it is. If it is, a second account whose number collides with an existing one (see `Accounts.AccountNumberCollides`) makes createAccount throw, while the model stores it.
- Null inputs. `Cents` is always a number, so the model has no null amount or null opening balance. TransactionRequest.java:10 does not require `amount`, and a null amount throws a NullPointerException at TransactionService.java:48, 85 and 131 instead of InvalidAmount. A null `initialBalance` is stored unchecked (AccountService.java:31), and any later deposit, withdraw or transfer touching that account then fails (`getBalance().add` at TransactionService.java:64 and 158, `getBalance().compareTo` at 96 and 146).
- Transactions.Insert: whether an insert the store rejects still uses up an identity value depends on the database. The model leaves the bank unchanged on every failure, and its contracts promise only identities that increase.

## Findings

| source | as written | input that shows it | evidently intended | confidence | as-written member | corrected member |
|---|---|---|---|---|---|---|
| src/main/java/com/example/finance/transactions/TransactionService.java:136-166 | transfer never checks that source and destination differ; both fetches yield the same account, both new balances are computed from its old balance, and the credit `old + amount` is written last | transfer(A, A, owner of A, x) with A ACTIVE and 0 < x <= balance(A): A ends with balance(A) + x and a TRANSFER record from A to A is logged | a transfer moves money between two distinct accounts and never changes the total | high; not executed | Conservation.SelfTransferGain | Ledger.TransferChecked |

`Ledger.Step` uses the corrected transfer. Its proved properties,
`Conservation.TransferCheckedConservesTotal` and
`Conservation.StepAccountsForEveryCent`, fail for the transfer as written:
`Conservation.SelfTransferGain` shows the total growing by the amount.

=== FILE: accounts.dfy ===
/** Accounts, the account store, and the reads AccountService offers over it:
    the ownership gate, getAccountById, getUserAccounts and the account
    number generated by createAccount. */
module Accounts {
  import opened Outcomes
  import Decimal

  type AccountId = int   // a Java Long
  type UserId = int      // a Java Long
  type Cents = int       // a BigDecimal of scale 2, counted in hundredths

  datatype AccountStatus = ACTIVE | SUSPENDED

  /** One stored account. `kind` carries the account type unchanged. */
  datatype Account = Account(
    number: string,
    owner: UserId,
    kind: string,
    balance: Cents,
    status: AccountStatus)

  /** The account table, keyed by account id. */
  type Store = map<AccountId, Account>

  /** The account exists and belongs to the user. */
  predicate OwnedBy(store: Store, id: AccountId, user: UserId) {
    id in store && store[id].owner == user
  }

  /** getAccountById: a missing account and somebody else's account are
      reported alike, as "Account not found"; otherwise the stored account. */
  function GetAccountById(store: Store, id: AccountId, user: UserId): (r: Result<Account>)
    ensures r.Ok? <==> OwnedBy(store, id, user)
    ensures r.Ok? ==> r.value == store[id]
    ensures r.Err? ==> r.error == NotFound
  {
    if id !in store then Err(NotFound)
    else if store[id].owner != user then Err(NotFound)
    else Ok(store[id])
  }

  /** The ownership gate the ledger runs before every user-initiated
      operation. It is built on the same check as getAccountById and, like
      it, does not tell an absent account from a foreign one. */
  function ValidateOwnership(store: Store, id: AccountId, user: UserId): (r: Result<Account>)
    ensures r.Ok? <==> OwnedBy(store, id, user)
    ensures r.Ok? ==> r.value == store[id]
    ensures r.Err? ==> r.error == Unauthorized
  {
    if OwnedBy(store, id, user) then Ok(store[id]) else Err(Unauthorized)
  }

  /** A caller who owns the account in neither of two stores gets the same
      answer from both: it cannot learn whether the account exists. */
  lemma NonOwnerCannotProbe(s1: Store, s2: Store, id: AccountId, user: UserId)
    requires !OwnedBy(s1, id, user) && !OwnedBy(s2, id, user)
    ensures GetAccountById(s1, id, user) == GetAccountById(s2, id, user)
    ensures ValidateOwnership(s1, id, user) == ValidateOwnership(s2, id, user)
  {
  }

  /** getUserAccounts: the accounts whose owner is the user (AccountService
      returns them as a list in no specified order). */
  function GetUserAccounts(store: Store, user: UserId): (r: Store)
    ensures forall id :: id in r <==> OwnedBy(store, id, user)
    ensures forall id | id in r :: id in store && r[id] == store[id]
  {
    map id | id in store && store[id].owner == user :: store[id]
  }

  /** An account is listed for a user exactly when getAccountById lets that
      user read it, and the listing shows the same account. */
  lemma UserAccountsMatchGetAccountById(store: Store, id: AccountId, user: UserId)
    ensures id in GetUserAccounts(store, user) <==> GetAccountById(store, id, user).Ok?
    ensures id in GetUserAccounts(store, user) ==>
              GetUserAccounts(store, user)[id] == GetAccountById(store, id, user).value
  {
  }

  /** The generated account number: "ACC", the user id, then the clock
      reading in milliseconds, each rendered as by `Long.toString`. */
  function AccountNumber(user: UserId, clock: int): (s: string)
    ensures |s| > 3 && s[..3] == "ACC"
    ensures user >= 0 && clock >= 0 ==> Decimal.AllDigits(s[3..])
  {
    var u := Decimal.LongToString(user);
    var t := Decimal.LongToString(clock);
    assert ("ACC" + u + t)[3..] == u + t;
    "ACC" + u + t
  }

  /** The number encodes the user id and then the clock reading: right after
      "ACC", the rendering of the user id reads back as the user id, and the
      rest reads back as the clock. */
  lemma AccountNumberEncodes(user: UserId, clock: int)
    ensures var s := AccountNumber(user, clock);
            var k := |Decimal.LongToString(user)|;
            && 3 + k < |s|
            && Decimal.IsLongText(s[3..3 + k]) && Decimal.LongValue(s[3..3 + k]) == user
            && Decimal.IsLongText(s[3 + k..]) && Decimal.LongValue(s[3 + k..]) == clock
  {
    var s := AccountNumber(user, clock);
    var u := Decimal.LongToString(user);
    var t := Decimal.LongToString(clock);
    assert s[3..3 + |u|] == u;
    assert s[3 + |u|..] == t;
    Decimal.LongValueOfLongToString(user);
    Decimal.LongValueOfLongToString(clock);
  }

  /** The number depends only on the user and the clock: two accounts the
      same user opens within one millisecond get the same number, and
      different users can collide too (user 1 at 23 ms, user 12 at 3 ms). */
  lemma AccountNumberCollides()
    ensures AccountNumber(1, 23) == AccountNumber(12, 3) == "ACC123"
  {
  }
}

=== FILE: conservation.dfy ===
/** Money accounting: the sum of all balances, the net flow the log
    records, and how each operation moves them. Deposits and withdrawals
    change the total by exactly their amount, a transfer between two
    distinct accounts changes nothing, and a transfer from an account to
    itself, as TransactionService.transfer is written, creates money. */
module Conservation {
  import opened Outcomes
  import opened Accounts
  import opened Transactions
  import opened Ledger

  lemma EmptyWithoutMembers(ids: set<AccountId>)
    requires forall id :: id !in ids
    ensures ids == {}
  {
    assert forall id :: id in ids <==> id in {};
  }

  lemma NonEmptyHasMember(ids: set<AccountId>)
    requires ids != {}
    ensures exists id :: id in ids
  {
    if forall id :: id !in ids {
      EmptyWithoutMembers(ids);
      assert false;
    }
  }

  /** Sum of the balances of the given accounts. */
  ghost function SumOver(store: Store, ids: set<AccountId>): int
    requires ids <= store.Keys
    decreases ids
  {
    if ids == {} then 0
    else
      NonEmptyHasMember(ids);
      var id :| id in ids;
      store[id].balance + SumOver(store, ids - {id})
  }

  /** Sum of all balances in the account table. */
  ghost function Total(store: Store): int {
    SumOver(store, store.Keys)
  }

  /** Any account can be taken out of the sum first. */
  lemma {:induction false} SumOverRemove(store: Store, ids: set<AccountId>, id: AccountId)
    requires ids <= store.Keys && id in ids
    ensures SumOver(store, ids) == store[id].balance + SumOver(store, ids - {id})
    decreases ids
  {
    var j :| j in ids && SumOver(store, ids) == store[j].balance + SumOver(store, ids - {j});
    if j != id {
      SumOverRemove(store, ids - {j}, id);
      SumOverRemove(store, ids - {id}, j);
      assert ids - {j} - {id} == ids - {id} - {j};
    }
  }

  /** The sum only looks at the balances of the accounts summed. */
  lemma {:induction false} SumOverFrame(s1: Store, s2: Store, ids: set<AccountId>)
    requires ids <= s1.Keys && ids <= s2.Keys
    requires forall id | id in ids :: s1[id].balance == s2[id].balance
    ensures SumOver(s1, ids) == SumOver(s2, ids)
    decreases ids
  {
    if ids != {} {
      NonEmptyHasMember(ids);
      var j :| j in ids;
      SumOverRemove(s1, ids, j);
      SumOverRemove(s2, ids, j);
      SumOverFrame(s1, s2, ids - {j});
    }
  }

  /** Writing one account moves the total by the change of that account's
      balance (or by the whole balance, for a new account). */
  lemma TotalAfterWrite(store: Store, id: AccountId, a: Account)
    ensures id in store ==> Total(store[id := a]) == Total(store) - store[id].balance + a.balance
    ensures id !in store ==> Total(store[id := a]) == Total(store) + a.balance
  {
    var after := store[id := a];
    SumOverRemove(after, after.Keys, id);
    if id in store {
      assert after.Keys == store.Keys;
      SumOverRemove(store, store.Keys, id);
      SumOverFrame(store, after, store.Keys - {id});
    } else {
      assert after.Keys - {id} == store.Keys;
      SumOverFrame(store, after, store.Keys);
    }
  }

  /** What one committed record adds to the sum of balances. */
  function Flow(t: TxRecord): int {
    match t.kind
    case DEPOSIT => t.amount
    case WITHDRAW => -t.amount
    case TRANSFER => 0
  }

  /** What the whole log adds to the sum of balances. */
  function NetFlow(log: seq<TxRecord>): int {
    if |log| == 0 then 0 else NetFlow(log[..|log| - 1]) + Flow(log[|log| - 1])
  }

  lemma NetFlowAppend(log: seq<TxRecord>, t: TxRecord)
    ensures NetFlow(log + [t]) == NetFlow(log) + Flow(t)
  {
  }

  /** The part of the total the log does not account for: what accounts were
      opened with. Balances may change only through logged movements, so
      every operation but account creation must keep it. */
  ghost function OpeningFunds(b: Bank): int {
    Total(b.accounts) - NetFlow(b.log)
  }

  /** A deposit raises the total by its amount, as its record says. */
  lemma DepositMovesTotal(b: Bank, id: AccountId, user: UserId, amount: Cents,
                          description: Option<string>, txId: nat, now: int)
    ensures var r := Deposit(b, id, user, amount, description, txId, now);
            r.outcome.Ok? ==>
              && Total(r.bank.accounts) == Total(b.accounts) + amount
              && OpeningFunds(r.bank) == OpeningFunds(b)
  {
    var r := Deposit(b, id, user, amount, description, txId, now);
    if r.outcome.Ok? {
      assert r.bank.accounts == b.accounts[id := r.bank.accounts[id]];
      TotalAfterWrite(b.accounts, id, r.bank.accounts[id]);
      NetFlowAppend(b.log, r.outcome.value);
    }
  }

  /** A withdrawal lowers the total by its amount, as its record says. */
  lemma WithdrawMovesTotal(b: Bank, id: AccountId, user: UserId, amount: Cents,
                           description: Option<string>, txId: nat, now: int)
    ensures var r := Withdraw(b, id, user, amount, description, txId, now);
            r.outcome.Ok? ==>
              && Total(r.bank.accounts) == Total(b.accounts) - amount
              && OpeningFunds(r.bank) == OpeningFunds(b)
  {
    var r := Withdraw(b, id, user, amount, description, txId, now);
    if r.outcome.Ok? {
      assert r.bank.accounts == b.accounts[id := r.bank.accounts[id]];
      TotalAfterWrite(b.accounts, id, r.bank.accounts[id]);
      NetFlowAppend(b.log, r.outcome.value);
    }
  }

  /** A transfer between two distinct accounts keeps the total. */
  lemma TransferConservesTotal(b: Bank, src: AccountId, dst: AccountId, user: UserId,
                               amount: Cents, description: Option<string>, txId: nat, now: int)
    requires src != dst
    ensures var r := Transfer(b, src, dst, user, amount, description, txId, now);
            r.outcome.Ok? ==>
              && Total(r.bank.accounts) == Total(b.accounts)
              && OpeningFunds(r.bank) == OpeningFunds(b)
  {
    var r := Transfer(b, src, dst, user, amount, description, txId, now);
    if r.outcome.Ok? {
      var debited := b.accounts[src := r.bank.accounts[src]];
      assert r.bank.accounts == debited[dst := r.bank.accounts[dst]];
      TotalAfterWrite(b.accounts, src, r.bank.accounts[src]);
      TotalAfterWrite(debited, dst, r.bank.accounts[dst]);
      NetFlowAppend(b.log, r.outcome.value);
    }
  }

  /** As written, a transfer from an account to itself succeeds whenever a
      transfer out of it would, and leaves the account richer by the amount:
      the credit computed from the fetched balance overwrites the debit. The
      total grows although the log records no inflow, and the logged
      TRANSFER names the same account on both sides. */
  lemma SelfTransferGain(b: Bank, id: AccountId, user: UserId, amount: Cents,
                         description: Option<string>, txId: nat, now: int)
    requires OwnedBy(b.accounts, id, user) && IsActive(b.accounts, id)
    requires 0 < amount <= b.accounts[id].balance
    requires FitsColumns(amount, description)
    ensures var r := Transfer(b, id, id, user, amount, description, txId, now);
            && r.outcome.Ok?
            && r.bank.accounts[id].balance == b.accounts[id].balance + amount
            && Total(r.bank.accounts) == Total(b.accounts) + amount
            && OpeningFunds(r.bank) == OpeningFunds(b) + amount
            && !WellFormedRecord(r.outcome.value, r.bank.accounts)
  {
    var r := Transfer(b, id, id, user, amount, description, txId, now);
    assert r.bank.accounts == b.accounts[id := r.bank.accounts[id]];
    TotalAfterWrite(b.accounts, id, r.bank.accounts[id]);
    NetFlowAppend(b.log, r.outcome.value);
  }

  /** The corrected transfer never changes the total. */
  lemma TransferCheckedConservesTotal(b: Bank, src: AccountId, dst: AccountId, user: UserId,
                                      amount: Cents, description: Option<string>, txId: nat, now: int)
    ensures var r := TransferChecked(b, src, dst, user, amount, description, txId, now);
            && Total(r.bank.accounts) == Total(b.accounts)
            && OpeningFunds(r.bank) == OpeningFunds(b)
  {
    if src != dst {
      TransferConservesTotal(b, src, dst, user, amount, description, txId, now);
    }
  }

  /** Opening an account adds its opening balance to the total and to the
      opening funds, and to nothing else. */
  lemma CreateAccountMovesTotal(b: Bank, user: UserId, kind: string, initialBalance: Cents,
                                now: int)
    requires Valid(b)
    ensures var r := CreateAccount(b, user, kind, initialBalance, now);
            r.outcome.Ok? ==>
              && Total(r.bank.accounts) == Total(b.accounts) + initialBalance
              && OpeningFunds(r.bank) == OpeningFunds(b) + initialBalance
  {
    var r := CreateAccount(b, user, kind, initialBalance, now);
    if r.outcome.Ok? {
      var id := r.outcome.value;
      assert r.bank.accounts == b.accounts[id := r.bank.accounts[id]];
      TotalAfterWrite(b.accounts, id, r.bank.accounts[id]);
    }
  }

  /** Across every request, the balances change only by what the log
      records, except for the opening balance of a new account. */
  lemma StepAccountsForEveryCent(b: Bank, op: Op, txId: nat, now: int)
    requires Valid(b)
    ensures var b' := Step(b, op, txId, now);
            OpeningFunds(b') == OpeningFunds(b)
              + (if op.OpenAccount? && op.user in b.users then op.initialBalance else 0)
  {
    match op
    case OpenAccount(user, kind, initial) =>
      CreateAccountMovesTotal(b, user, kind, initial, now);
    case DepositOp(id, user, amount, description) =>
      DepositMovesTotal(b, id, user, amount, description, txId, now);
    case WithdrawOp(id, user, amount, description) =>
      WithdrawMovesTotal(b, id, user, amount, description, txId, now);
    case TransferOp(src, dst, user, amount, description) =>
      TransferCheckedConservesTotal(b, src, dst, user, amount, description, txId, now);
  }
}

=== FILE: decimal.dfy ===
/** Java's decimal rendering of a `long`, as used when a number is
    concatenated into a string. */
module Decimal {

  predicate IsDigit(c: char) {
    '0' <= c <= '9'
  }

  predicate AllDigits(s: string) {
    forall i | 0 <= i < |s| :: IsDigit(s[i])
  }

  function DigitChar(d: int): (c: char)
    requires 0 <= d < 10
    ensures IsDigit(c)
    ensures c as int - '0' as int == d
  {
    ('0' as int + d) as char
  }

  /** The decimal digits of n, most significant first, without leading zeros. */
  function NatToString(n: nat): (s: string)
    ensures |s| >= 1
    ensures AllDigits(s)
    ensures n < 10 <==> |s| == 1
    ensures s[0] == '0' ==> n == 0
  {
    if n < 10 then [DigitChar(n)]
    else NatToString(n / 10) + [DigitChar(n % 10)]
  }

  /** The value of a string of decimal digits. */
  function DigitsValue(s: string): nat
    requires AllDigits(s)
  {
    if |s| == 0 then 0
    else DigitsValue(s[..|s| - 1]) * 10 + (s[|s| - 1] as int - '0' as int)
  }

  /** Reading the rendered digits back gives the number that was rendered. */
  lemma {:induction false} DigitsValueOfNatToString(n: nat)
    ensures DigitsValue(NatToString(n)) == n
  {
    if n >= 10 {
      var s := NatToString(n);
      assert s[..|s| - 1] == NatToString(n / 10);
      DigitsValueOfNatToString(n / 10);
    }
  }

  /** `Long.toString`: a minus sign for negative values, then the digits. */
  function LongToString(x: int): (s: string)
    ensures |s| >= 1
    ensures x >= 0 ==> AllDigits(s)
    ensures x < 0 <==> s[0] == '-'
    ensures x < 0 ==> AllDigits(s[1..])
  {
    if x < 0 then "-" + NatToString(-x) else NatToString(x)
  }

  /** Text `Long.parseLong` accepts without a plus sign: an optional minus
      sign followed by at least one digit. */
  predicate IsLongText(s: string) {
    && |s| >= 1
    && (if s[0] == '-' then |s| >= 2 && AllDigits(s[1..]) else AllDigits(s))
  }

  /** The value of such a text. */
  function LongValue(s: string): int
    requires IsLongText(s)
  {
    if s[0] == '-' then -(DigitsValue(s[1..]) as int) else DigitsValue(s) as int
  }

  /** Reading back what `Long.toString` rendered gives the number that was
      rendered, negative numbers included. */
  lemma {:induction false} LongValueOfLongToString(x: int)
    ensures IsLongText(LongToString(x))
    ensures LongValue(LongToString(x)) == x
  {
    var s := LongToString(x);
    if x < 0 {
      assert s[1..] == NatToString(-x);
      DigitsValueOfNatToString(-x);
    } else {
      assert IsDigit(s[0]);
      DigitsValueOfNatToString(x);
    }
  }
}

=== FILE: guards.dfy ===
/** The order in which the ledger operations run their checks, and what each
    rejection leaves behind: ownership, then amount, then existence, then
    status, then balance, and only then the insert of the record. */
module GuardOrder {
  import opened Outcomes
  import opened Accounts
  import opened Transactions
  import opened Ledger

  /** deposit reports the first of its checks that fails, and succeeds when
      none does. */
  lemma {:induction false} DepositGuardOrder(b: Bank, id: AccountId, user: UserId, amount: Cents,
                                             description: Option<string>, txId: nat, now: int)
    ensures var r := Deposit(b, id, user, amount, description, txId, now);
            var first := FirstFailed(DepositGuards(b, id, user, amount, description));
            && (r.outcome.Ok? <==> first.None?)
            && (r.outcome.Err? ==> first == Some(r.outcome.error))
  {
    var gs := DepositGuards(b, id, user, amount, description);
    if !gs[0].holds {
      FirstFailedIsFirst(gs, 0);
    } else if !gs[1].holds {
      FirstFailedIsFirst(gs, 1);
    } else if !gs[3].holds {
      FirstFailedIsFirst(gs, 3);
    } else if !gs[4].holds {
      FirstFailedIsFirst(gs, 4);
    } else {
      assert AllHold(gs);
    }
  }

  /** withdraw reports the first of its checks that fails, and succeeds when
      none does. */
  lemma {:induction false} WithdrawGuardOrder(b: Bank, id: AccountId, user: UserId,
                                              amount: Cents, description: Option<string>,
                                              txId: nat, now: int)
    ensures var r := Withdraw(b, id, user, amount, description, txId, now);
            var first := FirstFailed(WithdrawGuards(b, id, user, amount, description));
            && (r.outcome.Ok? <==> first.None?)
            && (r.outcome.Err? ==> first == Some(r.outcome.error))
  {
    var gs := WithdrawGuards(b, id, user, amount, description);
    if !gs[0].holds {
      FirstFailedIsFirst(gs, 0);
    } else if !gs[1].holds {
      FirstFailedIsFirst(gs, 1);
    } else if !gs[3].holds {
      FirstFailedIsFirst(gs, 3);
    } else if !gs[4].holds {
      FirstFailedIsFirst(gs, 4);
    } else if !gs[5].holds {
      FirstFailedIsFirst(gs, 5);
    } else {
      assert AllHold(gs);
    }
  }

  /** transfer reports the first of its checks that fails, and succeeds when
      none does. */
  lemma {:induction false} TransferGuardOrder(b: Bank, src: AccountId, dst: AccountId,
                                              user: UserId, amount: Cents,
                                              description: Option<string>, txId: nat, now: int)
    ensures var r := Transfer(b, src, dst, user, amount, description, txId, now);
            var first := FirstFailed(TransferGuards(b, src, dst, user, amount, description));
            && (r.outcome.Ok? <==> first.None?)
            && (r.outcome.Err? ==> first == Some(r.outcome.error))
  {
    var gs := TransferGuards(b, src, dst, user, amount, description);
    if !gs[0].holds {
      FirstFailedIsFirst(gs, 0);
    } else if !gs[1].holds {
      FirstFailedIsFirst(gs, 1);
    } else if !gs[3].holds {
      FirstFailedIsFirst(gs, 3);
    } else if !gs[4].holds {
      FirstFailedIsFirst(gs, 4);
    } else if !gs[5].holds {
      FirstFailedIsFirst(gs, 5);
    } else if !gs[6].holds {
      FirstFailedIsFirst(gs, 6);
    } else if !gs[7].holds {
      FirstFailedIsFirst(gs, 7);
    } else {
      assert AllHold(gs);
    }
  }

  /** A caller who does not own the operated account is refused before
      anything else is looked at, and nothing changes. For transfer only
      the source counts. */
  lemma ForeignAccountRefused(b: Bank, id: AccountId, other: AccountId, user: UserId,
                              amount: Cents, description: Option<string>, txId: nat, now: int)
    requires !OwnedBy(b.accounts, id, user)
    ensures Deposit(b, id, user, amount, description, txId, now) == Reply(b, Err(Unauthorized))
    ensures Withdraw(b, id, user, amount, description, txId, now) == Reply(b, Err(Unauthorized))
    ensures Transfer(b, id, other, user, amount, description, txId, now) == Reply(b, Err(Unauthorized))
    ensures GetTransactions(b, id, user) == Err(Unauthorized)
  {
  }

  /** The destination of a transfer is never checked for ownership: handing
      it to another owner changes neither whether the transfer succeeds,
      nor the error it reports, nor the record it logs. */
  lemma DestinationOwnerIrrelevant(b: Bank, src: AccountId, dst: AccountId, user: UserId,
                                   newOwner: UserId, amount: Cents,
                                   description: Option<string>, txId: nat, now: int)
    requires src != dst && dst in b.accounts
    ensures var b2 := b.(accounts := b.accounts[dst := b.accounts[dst].(owner := newOwner)]);
            Transfer(b2, src, dst, user, amount, description, txId, now).outcome
              == Transfer(b, src, dst, user, amount, description, txId, now).outcome
  {
  }

  /** An amount of zero or less is refused right after the ownership gate,
      by all three money operations, and nothing changes. */
  lemma NonPositiveAmountRefused(b: Bank, id: AccountId, dst: AccountId, user: UserId,
                                 amount: Cents, description: Option<string>, txId: nat, now: int)
    requires OwnedBy(b.accounts, id, user)
    requires amount <= 0
    ensures Deposit(b, id, user, amount, description, txId, now) == Reply(b, Err(InvalidAmount))
    ensures Withdraw(b, id, user, amount, description, txId, now) == Reply(b, Err(InvalidAmount))
    ensures Transfer(b, id, dst, user, amount, description, txId, now) == Reply(b, Err(InvalidAmount))
  {
  }

  /** An operated account that is not ACTIVE makes deposit and withdraw fail
      with Suspended, whatever its balance, and nothing is logged. */
  lemma InactiveAccountRefused(b: Bank, id: AccountId, user: UserId, amount: Cents,
                               description: Option<string>, txId: nat, now: int)
    requires OwnedBy(b.accounts, id, user) && amount > 0
    requires b.accounts[id].status != ACTIVE
    ensures Deposit(b, id, user, amount, description, txId, now) == Reply(b, Err(Suspended))
    ensures Withdraw(b, id, user, amount, description, txId, now) == Reply(b, Err(Suspended))
  {
  }

  /** Either side of a transfer that is not ACTIVE makes it fail with
      Suspended, before the balance is looked at. */
  lemma InactiveTransferSideRefused(b: Bank, src: AccountId, dst: AccountId, user: UserId,
                                    amount: Cents, description: Option<string>, txId: nat, now: int)
    requires OwnedBy(b.accounts, src, user) && dst in b.accounts && amount > 0
    requires !IsActive(b.accounts, src) || !IsActive(b.accounts, dst)
    ensures Transfer(b, src, dst, user, amount, description, txId, now) == Reply(b, Err(Suspended))
  {
  }

  /** withdraw at the balance boundary: one cent too many is refused and
      logs nothing, whatever the description, since the balance is checked
      before the record is inserted; exactly the balance empties the
      account when the record fits its columns. */
  lemma WithdrawBoundary(b: Bank, id: AccountId, user: UserId, amount: Cents,
                         description: Option<string>, txId: nat, now: int)
    requires OwnedBy(b.accounts, id, user) && IsActive(b.accounts, id) && amount > 0
    ensures b.accounts[id].balance < amount ==>
              Withdraw(b, id, user, amount, description, txId, now) == Reply(b, Err(InsufficientBalance))
    ensures b.accounts[id].balance == amount && FitsColumns(amount, description) ==>
              var r := Withdraw(b, id, user, amount, description, txId, now);
              r.outcome.Ok? && r.bank.accounts[id].balance == 0
  {
  }
}

=== FILE: ledger.dfy ===
/** The ledger engine of TransactionService, with the account creation of
    AccountService, as a pure state machine. Every operation is one atomic
    unit of work: it either commits all of its writes or, on any failure,
    hands back the bank it was given. */
module Ledger {
  import opened Outcomes
  import opened Accounts
  import opened Transactions

  /** The persistent state: known users, the account table, the transaction
      log, and the identity the account table hands out next. */
  datatype Bank = Bank(
    users: set<UserId>,
    accounts: Store,
    log: seq<TxRecord>,
    nextAccountId: AccountId)

  /** What an operation leaves behind, and what it answers the caller. */
  datatype Reply<+T> = Reply(bank: Bank, outcome: Result<T>)

  /** A committed record has the shape its type demands, a positive amount,
      fits its columns, is COMPLETED, and names only existing accounts. */
  predicate WellFormedRecord(t: TxRecord, store: Store) {
    && t.amount > 0
    && t.status == COMPLETED
    && FitsColumns(t.amount, t.description)
    && (t.source.Some? ==> t.source.value in store)
    && (t.destination.Some? ==> t.destination.value in store)
    && match t.kind
       case DEPOSIT => t.source.None? && t.destination.Some?
       case WITHDRAW => t.source.Some? && t.destination.None?
       case TRANSFER => t.source.Some? && t.destination.Some? && t.source != t.destination
  }

  /** The bank invariant: account ids below the next identity, every account
      owned by a known user, log identities strictly increasing, and every
      logged record well formed. */
  predicate Valid(b: Bank) {
    && (forall id | id in b.accounts :: id < b.nextAccountId && b.accounts[id].owner in b.users)
    && IdsIncrease(b.log)
    && (forall i | 0 <= i < |b.log| :: WellFormedRecord(b.log[i], b.accounts))
  }

  /** `after` is `before` with the balance of account `id` set to `balance`
      and nothing else changed. */
  predicate BalanceSetTo(before: Store, after: Store, id: AccountId, balance: Cents) {
    && id in before
    && after.Keys == before.Keys
    && after[id] == before[id].(balance := balance)
    && forall k | k in before && k != id :: after[k] == before[k]
  }

  /** The operation committed one COMPLETED record `t`, under the identity
      `txId` the store drew for it, appended to the log; the users and the
      account identity counter are untouched. */
  predicate Committed(before: Bank, after: Bank, t: TxRecord, txId: nat) {
    && after.users == before.users
    && after.nextAccountId == before.nextAccountId
    && after.log == before.log + [t]
    && t.id == txId
    && t.status == COMPLETED
  }

  /** validateAccountStatus: only an ACTIVE account may take part. */
  function ValidateAccountStatus(account: Account): (r: Result<Account>)
    ensures r.Ok? <==> account.status == ACTIVE
    ensures r.Ok? ==> r.value == account
    ensures r.Err? ==> r.error == Suspended
  {
    if account.status != ACTIVE then Err(Suspended) else Ok(account)
  }

  predicate IsActive(store: Store, id: AccountId) {
    id in store && store[id].status == ACTIVE
  }

  // ---------------------------------------------------------------- createAccount

  /** createAccount: fails for an unknown user; otherwise stores one new
      ACTIVE account with the requested balance (which is not checked for
      sign) under the next identity. */
  function CreateAccount(b: Bank, user: UserId, kind: string, initialBalance: Cents, now: int)
    : (r: Reply<AccountId>)
    ensures r.outcome.Err? <==> user !in b.users
    ensures r.outcome.Err? ==> r.outcome.error == UserNotFound && r.bank == b
    ensures r.outcome.Ok? ==>
      var id := r.outcome.value;
      && r.bank.users == b.users
      && r.bank.log == b.log
      && id in r.bank.accounts
      && r.bank.accounts[id] == Account(AccountNumber(user, now), user, kind, initialBalance, ACTIVE)
      && r.bank.accounts.Keys == b.accounts.Keys + {id}
      && (forall k | k in b.accounts && k != id :: r.bank.accounts[k] == b.accounts[k])
    ensures r.outcome.Ok? && Valid(b) ==>
      && r.outcome.value !in b.accounts
      && |r.bank.accounts| == |b.accounts| + 1
      && Valid(r.bank)
  {
    if user !in b.users then Reply(b, Err(UserNotFound))
    else
      var id := b.nextAccountId;
      var account := Account(AccountNumber(user, now), user, kind, initialBalance, ACTIVE);
      var accounts := b.accounts[id := account];
      assert Valid(b) ==> id !in b.accounts && accounts.Keys == b.accounts.Keys + {id};
      Reply(b.(accounts := accounts, nextAccountId := id + 1), Ok(id))
  }

  // ---------------------------------------------------------------- deposit

  /** The checks of deposit, in the order TransactionService.deposit runs them. */
  function DepositGuards(b: Bank, id: AccountId, user: UserId, amount: Cents,
                         description: Option<string>): seq<Guard>
  {
    [ Guard(OwnedBy(b.accounts, id, user), Unauthorized),
      Guard(amount > 0, InvalidAmount),
      Guard(id in b.accounts, NotFound),
      Guard(IsActive(b.accounts, id), Suspended),
      Guard(FitsColumns(amount, description), Aborted) ]
  }

  /** deposit: credit the caller's own active account by a positive amount
      and log one COMPLETED DEPOSIT record with no source. */
  function Deposit(b: Bank, id: AccountId, user: UserId, amount: Cents,
                   description: Option<string>, txId: nat, now: int): (r: Reply<TxRecord>)
    ensures r.outcome.Err? ==> r.bank == b
    ensures r.outcome.Ok? <==>
              && OwnedBy(b.accounts, id, user)
              && amount > 0
              && IsActive(b.accounts, id)
              && FitsColumns(amount, description)
    ensures r.outcome.Ok? ==>
      && Committed(b, r.bank, r.outcome.value, txId)
      && r.outcome.value.kind == DEPOSIT
      && r.outcome.value.source == None
      && r.outcome.value.destination == Some(id)
      && r.outcome.value.amount == amount
      && r.outcome.value.description == description
      && r.outcome.value.createdAt == now
      && BalanceSetTo(b.accounts, r.bank.accounts, id, b.accounts[id].balance + amount)
    ensures r.outcome.Ok? && Valid(b) && AboveLog(b.log, txId) ==> Valid(r.bank)
  {
    match ValidateOwnership(b.accounts, id, user)
    case Err(e) => Reply(b, Err(e))
    case Ok(_) =>
      if amount <= 0 then Reply(b, Err(InvalidAmount))
      else if id !in b.accounts then Reply(b, Err(NotFound))
      else
        match ValidateAccountStatus(b.accounts[id])
        case Err(e) => Reply(b, Err(e))
        case Ok(account) =>
          match Insert(b.log, None, Some(id), DEPOSIT, amount, description, txId, now)
          case Err(e) => Reply(b, Err(e))
          case Ok(pending) =>
            var accounts := b.accounts[id := account.(balance := account.balance + amount)];
            var log := MarkCompleted(pending, |b.log|);
            Reply(b.(accounts := accounts, log := log), Ok(log[|b.log|]))
  }

  // ---------------------------------------------------------------- withdraw

  /** The checks of withdraw, in the order TransactionService.withdraw runs them. */
  function WithdrawGuards(b: Bank, id: AccountId, user: UserId, amount: Cents,
                          description: Option<string>): seq<Guard>
  {
    [ Guard(OwnedBy(b.accounts, id, user), Unauthorized),
      Guard(amount > 0, InvalidAmount),
      Guard(id in b.accounts, NotFound),
      Guard(IsActive(b.accounts, id), Suspended),
      Guard(id in b.accounts && b.accounts[id].balance >= amount, InsufficientBalance),
      Guard(FitsColumns(amount, description), Aborted) ]
  }

  /** withdraw: debit the caller's own active account by a positive amount
      it can cover and log one COMPLETED WITHDRAW record with no destination. */
  function Withdraw(b: Bank, id: AccountId, user: UserId, amount: Cents,
                    description: Option<string>, txId: nat, now: int): (r: Reply<TxRecord>)
    ensures r.outcome.Err? ==> r.bank == b
    ensures r.outcome.Ok? <==>
              && OwnedBy(b.accounts, id, user)
              && amount > 0
              && IsActive(b.accounts, id)
              && b.accounts[id].balance >= amount
              && FitsColumns(amount, description)
    ensures r.outcome.Ok? ==>
      && Committed(b, r.bank, r.outcome.value, txId)
      && r.outcome.value.kind == WITHDRAW
      && r.outcome.value.source == Some(id)
      && r.outcome.value.destination == None
      && r.outcome.value.amount == amount
      && r.outcome.value.description == description
      && r.outcome.value.createdAt == now
      && BalanceSetTo(b.accounts, r.bank.accounts, id, b.accounts[id].balance - amount)
      && r.bank.accounts[id].balance >= 0
    ensures r.outcome.Ok? && Valid(b) && AboveLog(b.log, txId) ==> Valid(r.bank)
  {
    match ValidateOwnership(b.accounts, id, user)
    case Err(e) => Reply(b, Err(e))
    case Ok(_) =>
      if amount <= 0 then Reply(b, Err(InvalidAmount))
      else if id !in b.accounts then Reply(b, Err(NotFound))
      else
        match ValidateAccountStatus(b.accounts[id])
        case Err(e) => Reply(b, Err(e))
        case Ok(account) =>
          if account.balance < amount then Reply(b, Err(InsufficientBalance))
          else
            match Insert(b.log, Some(id), None, WITHDRAW, amount, description, txId, now)
            case Err(e) => Reply(b, Err(e))
            case Ok(pending) =>
              var accounts := b.accounts[id := account.(balance := account.balance - amount)];
              var log := MarkCompleted(pending, |b.log|);
              Reply(b.(accounts := accounts, log := log), Ok(log[|b.log|]))
  }

  // ---------------------------------------------------------------- transfer

  /** The checks of transfer, in the order TransactionService.transfer runs them. Only the
      source account is checked for ownership. */
  function TransferGuards(b: Bank, src: AccountId, dst: AccountId, user: UserId, amount: Cents,
                          description: Option<string>): seq<Guard>
  {
    [ Guard(OwnedBy(b.accounts, src, user), Unauthorized),
      Guard(amount > 0, InvalidAmount),
      Guard(src in b.accounts, NotFound),
      Guard(dst in b.accounts, NotFound),
      Guard(IsActive(b.accounts, src), Suspended),
      Guard(IsActive(b.accounts, dst), Suspended),
      Guard(src in b.accounts && b.accounts[src].balance >= amount, InsufficientBalance),
      Guard(FitsColumns(amount, description), Aborted) ]
  }

  /** transfer, as TransactionService.transfer is written: both accounts are
      fetched, both new balances are computed from the fetched values, then
      the source and the destination account are written in that order. Nothing rejects src == dst; in
      that case the second write wins (see SelfTransferGain). */
  function Transfer(b: Bank, src: AccountId, dst: AccountId, user: UserId, amount: Cents,
                    description: Option<string>, txId: nat, now: int): (r: Reply<TxRecord>)
    ensures r.outcome.Err? ==> r.bank == b
    ensures r.outcome.Ok? <==>
              && OwnedBy(b.accounts, src, user)
              && amount > 0
              && IsActive(b.accounts, src)
              && IsActive(b.accounts, dst)
              && b.accounts[src].balance >= amount
              && FitsColumns(amount, description)
    ensures r.outcome.Ok? ==>
      && Committed(b, r.bank, r.outcome.value, txId)
      && r.outcome.value.kind == TRANSFER
      && r.outcome.value.source == Some(src)
      && r.outcome.value.destination == Some(dst)
      && r.outcome.value.amount == amount
      && r.outcome.value.description == description
      && r.outcome.value.createdAt == now
      && r.bank.accounts.Keys == b.accounts.Keys
      && (forall k | k in b.accounts && k != src && k != dst :: r.bank.accounts[k] == b.accounts[k])
    ensures r.outcome.Ok? && src != dst ==>
      && r.bank.accounts[src] == b.accounts[src].(balance := b.accounts[src].balance - amount)
      && r.bank.accounts[dst] == b.accounts[dst].(balance := b.accounts[dst].balance + amount)
      && r.bank.accounts[src].balance + r.bank.accounts[dst].balance
           == b.accounts[src].balance + b.accounts[dst].balance
      && r.bank.accounts[src].balance >= 0
    ensures r.outcome.Ok? && src != dst && Valid(b) && AboveLog(b.log, txId) ==> Valid(r.bank)
  {
    match ValidateOwnership(b.accounts, src, user)
    case Err(e) => Reply(b, Err(e))
    case Ok(_) =>
      if amount <= 0 then Reply(b, Err(InvalidAmount))
      else if src !in b.accounts then Reply(b, Err(NotFound))
      else if dst !in b.accounts then Reply(b, Err(NotFound))
      else
        match ValidateAccountStatus(b.accounts[src])
        case Err(e) => Reply(b, Err(e))
        case Ok(source) =>
          match ValidateAccountStatus(b.accounts[dst])
          case Err(e) => Reply(b, Err(e))
          case Ok(destination) =>
            if source.balance < amount then Reply(b, Err(InsufficientBalance))
            else
              match Insert(b.log, Some(src), Some(dst), TRANSFER, amount, description, txId, now)
              case Err(e) => Reply(b, Err(e))
              case Ok(pending) =>
                var sourceNewBalance := source.balance - amount;
                var destinationNewBalance := destination.balance + amount;
                var accounts := b.accounts[src := source.(balance := sourceNewBalance)]
                                          [dst := destination.(balance := destinationNewBalance)];
                var log := MarkCompleted(pending, |b.log|);
                Reply(b.(accounts := accounts, log := log), Ok(log[|b.log|]))
  }

  /** Transfer with the evident intent restored: after the ownership and
      amount checks, a transfer from an account to itself is refused. */
  function TransferChecked(b: Bank, src: AccountId, dst: AccountId, user: UserId, amount: Cents,
                           description: Option<string>, txId: nat, now: int): (r: Reply<TxRecord>)
    ensures r.outcome.Err? ==> r.bank == b
    ensures OwnedBy(b.accounts, src, user) && amount > 0 && src == dst ==>
              r.outcome == Err(SameAccount)
    ensures src != dst ==> r == Transfer(b, src, dst, user, amount, description, txId, now)
    ensures r.outcome.Ok? ==>
      && src != dst
      && r.bank.accounts[src].balance == b.accounts[src].balance - amount
      && r.bank.accounts[dst].balance == b.accounts[dst].balance + amount
    ensures r.outcome.Ok? && Valid(b) && AboveLog(b.log, txId) ==> Valid(r.bank)
  {
    if OwnedBy(b.accounts, src, user) && amount > 0 && src == dst then Reply(b, Err(SameAccount))
    else Transfer(b, src, dst, user, amount, description, txId, now)
  }

  // ---------------------------------------------------------------- getTransactions

  /** getTransactions: after the ownership gate, every logged record whose
      source or destination is the account. TransactionService promises no order;
      the model keeps log order. Reading changes nothing. */
  function GetTransactions(b: Bank, id: AccountId, user: UserId): (r: Result<seq<TxRecord>>)
    ensures r.Ok? <==> OwnedBy(b.accounts, id, user)
    ensures r.Err? ==> r.error == Unauthorized
    ensures r.Ok? ==> forall t :: t in r.value <==> t in b.log && Touches(t, id)
    ensures r.Ok? ==> multiset(r.value) <= multiset(b.log)
  {
    match ValidateOwnership(b.accounts, id, user)
    case Err(e) => Err(e)
    case Ok(_) =>
      if id !in b.accounts then Err(NotFound)
      else
        InvolvingMembers(b.log, id);
        Ok(Involving(b.log, id))
  }

  /** The history getTransactions returns holds every record touching the
      account exactly as often as the log does, and no other record. */
  lemma GetTransactionsCounts(b: Bank, id: AccountId, user: UserId)
    requires OwnedBy(b.accounts, id, user)
    ensures var r := GetTransactions(b, id, user);
            && r.Ok?
            && forall t :: multiset(r.value)[t]
                             == if Touches(t, id) then multiset(b.log)[t] else 0
  {
    InvolvingMembers(b.log, id);
  }

  // ---------------------------------------------------------------- the bank as a state machine

  /** One request against the bank. */
  datatype Op =
    | OpenAccount(user: UserId, kind: string, initialBalance: Cents)
    | DepositOp(account: AccountId, user: UserId, amount: Cents, description: Option<string>)
    | WithdrawOp(account: AccountId, user: UserId, amount: Cents, description: Option<string>)
    | TransferOp(src: AccountId, dst: AccountId, user: UserId, amount: Cents,
                 description: Option<string>)

  /** The bank after one request, with the corrected transfer. A record it
      logs gets the identity `txId` the store draws and the clock reading
      `now`; a failed request leaves the bank as it was. */
  function Step(b: Bank, op: Op, txId: nat, now: int): (r: Bank)
    ensures Valid(b) && AboveLog(b.log, txId) ==> Valid(r)
    ensures r.log == b.log || (|r.log| == |b.log| + 1 && r.log[..|b.log|] == b.log)
    ensures r.accounts.Keys >= b.accounts.Keys
  {
    match op
    case OpenAccount(user, kind, initial) => CreateAccount(b, user, kind, initial, now).bank
    case DepositOp(id, user, amount, description) =>
      Deposit(b, id, user, amount, description, txId, now).bank
    case WithdrawOp(id, user, amount, description) =>
      Withdraw(b, id, user, amount, description, txId, now).bank
    case TransferOp(src, dst, user, amount, description) =>
      TransferChecked(b, src, dst, user, amount, description, txId, now).bank
  }
}

=== FILE: outcomes.dfy ===
/** Tagged results used in place of the service's exceptions, and the
    ordered guard lists that decide which error an operation reports. */
module Outcomes {

  datatype Option<+T> = None | Some(value: T)

  /** The closed set of failure kinds an operation can report. */
  datatype Error =
    | NotFound             // an account (or the caller's view of it) is missing
    | Unauthorized         // the ownership gate refused the caller
    | Suspended            // an operated account is not ACTIVE
    | InvalidAmount        // the requested amount is zero or negative
    | InsufficientBalance  // the debited balance is below the amount
    | UserNotFound         // createAccount for a user that does not exist
    | Aborted              // the unit of work did not commit (a column constraint failed)
    | SameAccount          // transfer to the source account itself (corrected transfer only)

  datatype Result<+T> = Ok(value: T) | Err(error: Error)

  /** One check of an operation: whether it holds, and the error it raises if not. */
  datatype Guard = Guard(holds: bool, error: Error)

  /** Every check holds. */
  predicate AllHold(gs: seq<Guard>) {
    forall i | 0 <= i < |gs| :: gs[i].holds
  }

  /** The error of the first check that does not hold, in the order the
      checks are listed; None when every check holds. */
  function FirstFailed(gs: seq<Guard>): (r: Option<Error>)
    ensures r.None? <==> AllHold(gs)
    ensures r.Some? ==> exists i | 0 <= i < |gs| :: !gs[i].holds && r.value == gs[i].error
    ensures |gs| > 0 && !gs[0].holds ==> r == Some(gs[0].error)
  {
    if |gs| == 0 then None
    else if !gs[0].holds then Some(gs[0].error)
    else
      var rest := FirstFailed(gs[1..]);
      assert forall i | 1 <= i < |gs| :: gs[i] == gs[1..][i - 1];
      rest
  }

  /** If check k fails and every check before it holds, k's error is the
      one reported, whatever the checks after it say. */
  lemma {:induction false} FirstFailedIsFirst(gs: seq<Guard>, k: nat)
    requires k < |gs| && !gs[k].holds
    requires forall j | 0 <= j < k :: gs[j].holds
    ensures FirstFailed(gs) == Some(gs[k].error)
  {
    if k > 0 {
      assert gs[1..][k - 1] == gs[k];
      FirstFailedIsFirst(gs[1..], k - 1);
    }
  }
}

=== FILE: properties.dfy ===
/** Properties that span several requests: balances stay non-negative, a
    deposit is undone by a withdrawal of the same amount, and the history of
    an account lists exactly the movements that touched it. */
module Properties {
  import opened Outcomes
  import opened Accounts
  import opened Transactions
  import opened Ledger

  /** No account is overdrawn. */
  predicate NonNegative(store: Store) {
    forall id | id in store :: store[id].balance >= 0
  }

  /** Money operations never overdraw an account, and neither does opening
      one with a non-negative balance. */
  lemma StepKeepsBalancesNonNegative(b: Bank, op: Op, txId: nat, now: int)
    requires NonNegative(b.accounts)
    requires op.OpenAccount? ==> op.initialBalance >= 0
    ensures NonNegative(Step(b, op, txId, now).accounts)
  {
  }

  /** createAccount does not look at the sign of the opening balance: a
      known user can open an overdrawn account. */
  lemma NegativeOpeningBalanceAccepted(b: Bank, user: UserId, kind: string,
                                       initialBalance: Cents, now: int)
    requires user in b.users && initialBalance < 0
    ensures var r := CreateAccount(b, user, kind, initialBalance, now);
            && r.outcome.Ok?
            && !NonNegative(r.bank.accounts)
  {
  }

  /** Depositing and then withdrawing the same amount restores every
      balance, and logs two records. The account must not start overdrawn:
      otherwise the withdrawal can exceed the credited balance. */
  lemma DepositThenWithdraw(b: Bank, id: AccountId, user: UserId, amount: Cents,
                            d1: Option<string>, d2: Option<string>, i1: nat, i2: nat,
                            t1: int, t2: int)
    requires Deposit(b, id, user, amount, d1, i1, t1).outcome.Ok?
    requires b.accounts[id].balance >= 0
    requires FitsColumns(amount, d2)
    ensures var b1 := Deposit(b, id, user, amount, d1, i1, t1).bank;
            var r := Withdraw(b1, id, user, amount, d2, i2, t2);
            && r.outcome.Ok?
            && r.bank.accounts == b.accounts
            && |r.bank.log| == |b.log| + 2
  {
  }

  /** After deposit(A, 100.00), withdraw(A, 30.00) and transfer(A, B, 20.00)
      the history of A ends with exactly these three COMPLETED records (in
      the model's log order), and
      A is 50.00 richer while B is 20.00 richer. */
  lemma HistoryOfThreeMovements(b: Bank, a: AccountId, other: AccountId, user: UserId,
                                i1: nat, i2: nat, i3: nat, t1: int, t2: int, t3: int)
    requires a != other
    requires OwnedBy(b.accounts, a, user)
    requires IsActive(b.accounts, a) && IsActive(b.accounts, other)
    requires b.accounts[a].balance >= 0
    ensures var r1 := Deposit(b, a, user, 10000, None, i1, t1);
            var r2 := Withdraw(r1.bank, a, user, 3000, None, i2, t2);
            var r3 := TransferChecked(r2.bank, a, other, user, 2000, None, i3, t3);
            var h := GetTransactions(r3.bank, a, user);
            && r1.outcome.Ok? && r2.outcome.Ok? && r3.outcome.Ok?
            && h.Ok?
            && h.value == Involving(b.log, a) + [r1.outcome.value, r2.outcome.value, r3.outcome.value]
            && r1.outcome.value.amount == 10000 && r1.outcome.value.status == COMPLETED
            && r2.outcome.value.amount == 3000 && r2.outcome.value.status == COMPLETED
            && r3.outcome.value.amount == 2000 && r3.outcome.value.status == COMPLETED
            && r3.bank.accounts[a].balance == b.accounts[a].balance + 5000
            && r3.bank.accounts[other].balance == b.accounts[other].balance + 2000
  {
    var r1 := Deposit(b, a, user, 10000, None, i1, t1);
    assert r1.outcome.Ok?;
    assert r1.bank.accounts[a].balance == b.accounts[a].balance + 10000;
    assert IsActive(r1.bank.accounts, other) && r1.bank.accounts[other] == b.accounts[other];
    var r2 := Withdraw(r1.bank, a, user, 3000, None, i2, t2);
    assert r2.outcome.Ok?;
    assert r2.bank.accounts[a].balance == b.accounts[a].balance + 7000;
    assert IsActive(r2.bank.accounts, other) && r2.bank.accounts[other] == b.accounts[other];
    var r3 := TransferChecked(r2.bank, a, other, user, 2000, None, i3, t3);
    assert r3.outcome.Ok?;
    assert r3.bank.log == b.log + [r1.outcome.value] + [r2.outcome.value] + [r3.outcome.value];
    InvolvingAppendThree(b.log, r1.outcome.value, r2.outcome.value, r3.outcome.value, a);
  }

  /** Three appends that all touch the account extend its history by
      those three records, in order. */
  lemma InvolvingAppendThree(log: seq<TxRecord>, x: TxRecord, y: TxRecord, z: TxRecord, a: AccountId)
    requires Touches(x, a) && Touches(y, a) && Touches(z, a)
    ensures Involving(log + [x] + [y] + [z], a) == Involving(log, a) + [x, y, z]
  {
    var l1 := log + [x];
    var l2 := l1 + [y];
    InvolvingAppend(log, x, a);
    InvolvingAppend(l1, y, a);
    InvolvingAppend(l2, z, a);
    assert Involving(l2, a) == Involving(log, a) + [x] + [y];
    assert Involving(log, a) + [x] + [y] + [z] == Involving(log, a) + [x, y, z];
  }
}

=== FILE: transactions.dfy ===
/** The transaction record, its column constraints, and the transaction
    log with the three things the service does to it: insert a PENDING
    record, mark it COMPLETED, and query it by account. */
module Transactions {
  import opened Outcomes
  import opened Accounts

  datatype TxType = DEPOSIT | WITHDRAW | TRANSFER

  datatype TxStatus = PENDING | COMPLETED | FAILED

  /** One transaction row. Accounts are referred to by id; `id` is the
      identity the store assigns on insert and `createdAt` the clock
      reading taken then. */
  datatype TxRecord = TxRecord(
    id: nat,
    source: Option<AccountId>,
    destination: Option<AccountId>,
    kind: TxType,
    amount: Cents,
    description: Option<string>,
    status: TxStatus,
    createdAt: int)

  /** Width of the description column. */
  const DescriptionLength: nat := 255

  /** The amount column holds 15 decimal digits, 2 of them after the point:
      in cents, strictly less than 10^15 in magnitude. */
  const AmountBound: int := 1_000_000_000_000_000

  /** The row can be stored: the amount fits its precision and the
      description its length. */
  predicate FitsColumns(amount: Cents, description: Option<string>) {
    && -AmountBound < amount < AmountBound
    && (description.Some? ==> |description.value| <= DescriptionLength)
  }

  /** Identities strictly increase along the log. The store's IDENTITY
      column never hands out a value twice, but a value drawn for a row
      that is then rejected or rolled back is lost, so there may be gaps. */
  predicate IdsIncrease(log: seq<TxRecord>) {
    forall i, j | 0 <= i < j < |log| :: log[i].id < log[j].id
  }

  /** `id` is above every identity already logged, as a fresh IDENTITY
      value is. */
  predicate AboveLog(log: seq<TxRecord>, id: nat) {
    forall i | 0 <= i < |log| :: log[i].id < id
  }

  /** Insert a new PENDING record under the identity `txId` the store
      draws for it; the store rejects a row that does not fit its columns,
      which aborts the unit of work. */
  function Insert(log: seq<TxRecord>, source: Option<AccountId>, destination: Option<AccountId>,
                  kind: TxType, amount: Cents, description: Option<string>, txId: nat, now: int)
    : (r: Result<seq<TxRecord>>)
    ensures r.Ok? <==> FitsColumns(amount, description)
    ensures r.Err? ==> r.error == Aborted
    ensures r.Ok? ==> r.value == log + [TxRecord(txId, source, destination, kind, amount,
                                                 description, PENDING, now)]
    ensures r.Ok? && IdsIncrease(log) && AboveLog(log, txId) ==> IdsIncrease(r.value)
  {
    if FitsColumns(amount, description) then
      Ok(log + [TxRecord(txId, source, destination, kind, amount, description, PENDING, now)])
    else
      Err(Aborted)
  }

  /** Set the status of the record at position `at` to COMPLETED (the
      service updates the very record object it has just inserted). Only
      that one field of that one record changes; in particular its identity
      and creation time are kept. */
  function MarkCompleted(log: seq<TxRecord>, at: nat): (r: seq<TxRecord>)
    requires at < |log|
    ensures |r| == |log|
    ensures r[at].status == COMPLETED
    ensures r[at].(status := log[at].status) == log[at]
    ensures r[at].id == log[at].id && r[at].createdAt == log[at].createdAt
    ensures forall i | 0 <= i < |log| && i != at :: r[i] == log[i]
  {
    log[at := log[at].(status := COMPLETED)]
  }

  /** What the service does with a record that passed its checks: insert it
      PENDING, then mark it COMPLETED. Seen from outside, one COMPLETED
      record is appended, stamped with the insertion time. */
  lemma PendingThenCompleted(log: seq<TxRecord>, source: Option<AccountId>,
                             destination: Option<AccountId>, kind: TxType, amount: Cents,
                             description: Option<string>, txId: nat, now: int)
    requires FitsColumns(amount, description)
    ensures var pending := Insert(log, source, destination, kind, amount, description, txId, now).value;
            MarkCompleted(pending, |log|)
              == log + [TxRecord(txId, source, destination, kind, amount, description,
                                 COMPLETED, now)]
  {
  }

  /** The record names the account as its source or its destination. */
  predicate Touches(t: TxRecord, account: AccountId) {
    t.source == Some(account) || t.destination == Some(account)
  }

  /** findBySourceAccountOrDestinationAccount(account, account): the records
      that touch the account, kept in log order. */
  function Involving(log: seq<TxRecord>, account: AccountId): (r: seq<TxRecord>)
    ensures |r| <= |log|
  {
    if |log| == 0 then []
    else if Touches(log[0], account) then [log[0]] + Involving(log[1..], account)
    else Involving(log[1..], account)
  }

  /** The query returns exactly the records of the log that touch the
      account, each exactly as often as the log holds it. */
  lemma {:induction false} InvolvingMembers(log: seq<TxRecord>, account: AccountId)
    ensures forall t :: t in Involving(log, account) <==> t in log && Touches(t, account)
    ensures forall t :: multiset(Involving(log, account))[t]
                          == if Touches(t, account) then multiset(log)[t] else 0
  {
    if |log| > 0 {
      assert log == [log[0]] + log[1..];
      assert multiset(log) == multiset([log[0]]) + multiset(log[1..]);
      InvolvingMembers(log[1..], account);
    }
  }

  /** Querying after an append sees the earlier answer followed by the new
      record when that record touches the account. */
  lemma {:induction false} InvolvingAppend(log: seq<TxRecord>, t: TxRecord, account: AccountId)
    ensures Involving(log + [t], account)
              == Involving(log, account) + (if Touches(t, account) then [t] else [])
  {
    if |log| > 0 {
      assert (log + [t])[1..] == log[1..] + [t];
      InvolvingAppend(log[1..], t, account);
    }
  }
}
